=== FILE: README.md ===
# Capsicum for Linux: a verified model of the capability layer

Capsicum confines a process by giving it **capabilities**: file descriptors
that wrap another file together with a 64-bit rights mask. In capability mode
a thread can only reach files through descriptors it already holds, and every
system call is checked against the rights of the descriptors it names.
`security/capsicum.c` implements this as a Linux security module. It has four
parts, and this project models each of them.

- **Capability objects.**
  - Allocation, setting, unwrapping and installation of capability objects.
  - The `cap_new` and `cap_getrights` system calls.
  - Release of a capability.
  - Module `Caps`, in `capability.dfy`.
- **The per-thread pending-syscall state.** For the call in progress it records which file each checked descriptor referred to. This is the anti-TOCTOU record. It also holds the capability armed for `openat`, and it belongs to one thread through that thread's credentials.
  - Rights checking and recording (`capsicum_require_rights`).
  - Growing the record arrays.
  - Creating and finding the state.
  - The credential hooks.
  - Module `Pending`, in `pending.dfy`.
- **Interception** (`capsicum_intercept_syscall`). It resets the records, runs the call's rights requirements and arms a pre-allocated capability for `openat` on a capability. Module `Intercept`, in `intercept.dfy`.
- **The VFS hooks.** Descriptor lookup checks the records and unwraps, file installation wraps a new file in the armed capability, and path lookup refuses `..` and absolute names. Module `Hooks`, in `hooks.dfy`.

`capsicum_types.dfy` fixes the integer widths, rights masks and error numbers. `scenarios.dfy` holds whole runs that combine the parts, after the in-kernel tests in `security/capsicum_test.c`.

How the kernel's pieces are represented:

- **Files.**
  - A file is `Plain(id)` or `CapFile(cap)`. Two files are the same `struct file *` exactly when the values are equal.
  - A capability is a `Capability` object whose `rights` and `underlying` fields `cap_set` and `release` update in place. `None` stands for a NULL underlying file.
- **The descriptor table.** It is a `map<Fd, File>` passed in, and returned by the operations that install a descriptor.
- **The pending-syscall state.** It is a `PendingSyscall` object:
  - the record arrays `fds` and `files`, and the cursor `nextFree`;
  - the capacity `fdCount`;
  - the armed slot `nextNewCap`, which is NULL, a capability, or an error pointer;
  - `newCapRights`;
  - the owning `task`.
- **Threads and credentials.** `Task` and `Cred` objects; the running thread is the `current` parameter.
- **Integer widths.**
  - A descriptor is an `unsigned int` (`Fd`).
  - A raw system-call argument is an `unsigned long` (`ULong`). Passing it as a descriptor truncates it (`ToFd`).
  - `AT_FDCWD` arrives as `2^64 - 100`.
- **Allocation outcomes.** Each kernel allocation outcome is a boolean parameter.
- **Capability mode and the enabled switch.** These are boolean parameters too.
- **The pre-allocation step.** Interception takes a `corrected` flag. With `false` it runs the code as written, where a failed allocation leaves an error pointer in the armed slot. With `true` it runs the repaired step described under Findings.
- **The syscall rights table.** It is given as the list of `(argument, rights)` requirements for the call (`Check`). It is run in order and stops at the first refusal (`RunTable`).

## Model

| member | source | states |
|---|---|---|
| CapsicumTypes.ToFd | security/capsicum.c:300-318 | An `unsigned long` descriptor argument below 2^32 names that descriptor; a larger one is cut down, never up. |
| CapsicumTypes.NarrowRights | security/capsicum.c:403-421 | A derived capability never holds a right the source lacks, and a plain source (all rights) passes the requested mask through unchanged. |
| Caps.Capability.constructor | security/capsicum.c:217 | A new capability is zero-filled: no rights, no underlying file. |
| Caps.Unwrap | security/capsicum.c:247-260 | Only a capability unwraps; anything else yields NULL. |
| Caps.RightsOf | security/capsicum.c:247-260 | The rights reported for a file that is not a capability are the all-ones default every caller starts from. |
| Caps.Innermost | security/capsicum.c:282-283 | The file a new capability will point at is what the original wraps, or the original itself when it does not unwrap. |
| Caps.CapAlloc | security/capsicum.c:212-226 | Allocation succeeds exactly when the kernel allocations do, yielding a fresh zeroed capability; otherwise ENOMEM. |
| Caps.CapSet | security/capsicum.c:232-240 | Afterwards the capability unwraps to the given file with exactly the given rights; set on a plain file it does not stack. |
| Caps.Release | security/capsicum.c:473-487 | A non-capability gives EINVAL; a capability gives back its wrapped file for the reference drop and is left wrapping nothing. |
| Caps.InstallFd | security/capsicum.c:266-293 | On success the new descriptor (the one handed out) holds a fresh capability with exactly the given rights whose underlying file is the original's innermost file, so capabilities never stack; the rest of the table is unchanged. A failed descriptor or allocation is returned and changes nothing. |
| Caps.CapGetrights | security/capsicum.c:436-463 | EBADF exactly when nothing is installed, EINVAL exactly for a non-capability, and otherwise the capability's rights. |
| Caps.CapNew | security/capsicum.c:399-434 | ENOSYS when disabled and EBADF for a missing descriptor, a capability wrapping nothing, or a file being freed. Success is decided by descriptor and allocation. On success the new descriptor's rights are the requested ones narrowed to the source's, it wraps the source's innermost plain file, and every capability in the table still wraps a plain file. |
| Pending.RequireSpec | security/capsicum.c:300-343 | AT_FDCWD gives ECAPMODE, an unresolved descriptor EBADF and a full record array ENOMEM, each exactly in its case and without touching the records. Otherwise exactly one record is appended at the cursor, even when the result is ENOTCAPABLE. The result is 0 exactly when the file's rights include the required ones. |
| Pending.PendingSyscall.constructor | security/capsicum.c:140-148 | A new state has fresh record arrays of the inline capacity and belongs to the given thread. |
| Pending.PendingSyscall.RequireRights | security/capsicum.c:300-343 | The return code and the new records are those of `RequireSpec` applied to the old records, and the cursor stays within the arrays. |
| Pending.PendingSyscall.Realloc | security/capsicum.c:165-196 | Capacity only grows. Asking for no more than the capacity, or a failed allocation, changes nothing. Otherwise the capacity becomes the request, with fresh arrays whose contents are not carried over. |
| Pending.GetPendingSyscall | security/capsicum.c:202-206 | The state hung off the credentials is returned exactly when it belongs to the running thread, and NULL otherwise. |
| Pending.CredAllocBlank | security/capsicum.c:638-650 | On success the credentials carry fresh, empty, unarmed state bound to the thread; on failure ENOMEM and nothing changes. |
| Pending.CredPrepare | security/capsicum.c:652-669 | A copied credential gets blank state only when the original's state belongs to the running thread, and never the original's records. |
| Pending.CredFree | security/capsicum.c:616-636 | The credentials are left without state, and the armed capability, if any, is handed back to be freed. |
| Pending.PrepareCreds | security/capsicum.c:127-129 | A new credential for the thread succeeds or fails with ENOMEM. It carries blank state exactly when the old credential's state was the thread's own. |
| Pending.AllocPendingSyscall | security/capsicum.c:115-159 | The thread's own state is reused unchanged. Otherwise the thread gets fresh credentials with fresh state that is empty, unarmed (all-ones rights) and bound to it, or ENOMEM with the credentials unchanged. |
| Intercept.RunTable | security/capsicum.c:367 | The records stay well formed and the cursor advances by at most one per requirement, and by exactly one per requirement when all pass. |
| Intercept.RunTableRecords | security/capsicum.c:319-339 | After a pass with no refusal, every requirement's descriptor resolved with the rights it needs and was recorded in order from the old cursor; earlier records are kept. |
| Intercept.ToctouDetected | security/capsicum.c:326-335 | After a pass with no refusal, every checked descriptor has a record, and a record shows any other file for that descriptor as a mismatch. |
| Intercept.FirstRecordIsFirstArgument | security/capsicum.c:369-371 | After a reset and a pass with no refusal, slot 0 holds the file of the first checked argument: the directory `openat` arms from. |
| Intercept.RunSyscallTable | security/capsicum.c:367 | Running the requirements on the state returns and records exactly what `RunTable` does. |
| Intercept.PreallocateAsWritten | security/capsicum.c:381-385 | As written: an existing slot is reused as it is, and a failed allocation returns ENOMEM but leaves an error pointer in the slot. |
| Intercept.Preallocate | security/capsicum.c:381-385 | Corrected: an existing slot is reused, a successful allocation arms a fresh capability, and a failed one returns ENOMEM with the slot still NULL; the slot never holds an error pointer. |
| Intercept.ArmForOpenat | security/capsicum.c:369-394 | Only an `openat` that passed its checks on a capability arms. A non-NULL slot is reused as it is, an error pointer included, and takes the directory's rights. Otherwise a capability is allocated: success arms it, failure returns ENOMEM with rights 0 and, as written, an error pointer in the slot (NULL with the correction). Any other call keeps its status and the slot, with rights 0. The corrected step keeps the slot free of error pointers. |
| Intercept.CheckAndArm | security/capsicum.c:365-396 | The records are reset, the requirements run from slot 0 with the result `RunTable` gives, and arming happens exactly as `ArmForOpenat` states, from the slot an earlier call left (an error pointer is reused like a capability). |
| Intercept.InterceptSyscall | security/capsicum.c:352-397 | Disabled: returns 0 and touches nothing. The thread's own state is always reused, and the thread then keeps its credentials. Without it, fresh state is obtained exactly when the credential and state allocations succeed; otherwise the call returns ENOMEM and leaves the credentials and any existing state untouched. With state, the checks and arming happen as stated for `CheckAndArm`. As written, a failed pre-allocation leaves an error pointer that the next call reuses; with the correction the slot stays free of error pointers. |
| Hooks.FileLookup | security/capsicum.c:525-561 | A non-capability (or one wrapping nothing) is returned as is. A capability fails exactly when the thread is in capability mode with its own state and some record for the descriptor names another file; otherwise it yields the underlying file. |
| Hooks.FileInstall | security/capsicum.c:569-593 | The file is returned unchanged when it is a capability, there is no state, the rights are all-ones or nothing is armed; in each of these cases the armed slot, the armed rights and the armed capability object are left as they were. Otherwise the armed capability is returned, wrapping the file with the armed rights, and the state is disarmed (NULL, rights 0). Only in that wrapping case, where the source dereferences the slot, must it not hold an error pointer. |
| Hooks.PathLookup | security/capsicum.c:601-614 | In capability mode a name is refused with ECAPMODE exactly when it is `..`, starts with `../`, or starts with `/`; outside it every name is accepted. |
| Hooks.PathLookupSegments | security/capsicum.c:601-614 | `/etc/passwd`, `../x` and the `../b` segment of `a/../b` are refused; `etc/passwd`, `a/b`, `.`, `...` and `..a` are accepted. |
| Scenarios.DeriveTwice | security/capsicum.c:403-421 | Deriving from a derived capability wraps the original plain file, and the rights are the intersection of both masks. |
| Scenarios.RewrapReachesOriginal | security/capsicum_test.c:64-99 | A capability with rights 0 unwraps to the original. Wrapping it again with every right yields a capability over the original with all rights. |
| Scenarios.LookupUnwrapsOutsideCapMode | security/capsicum_test.c:139-147 | Outside capability mode, looking a capability up yields the original file. |
| Scenarios.SimulateToctou | security/capsicum_test.c:184-226 | A write checked against a writable capability passes. After the descriptor is redirected to another capability, the lookup fails. |
| Scenarios.ReadOnlyCapRefusesWrite | security/capsicum.c:336-339 | A write on a capability derived with only the read right is refused with ENOTCAPABLE. |
| Scenarios.ImplicitDirectoryRefused | security/capsicum.c:308-310 | A confined call naming AT_FDCWD is refused with ECAPMODE. |
| Scenarios.DisabledAllowsEveryCall | security/capsicum.c:358-359 | With interception disabled every call returns 0 whatever it requires. |
| Scenarios.OpenatWrapsNewFile | security/capsicum.c:584-592 | `openat` on a lookup-only directory capability is allowed, and the new file is installed wrapped in a capability with the lookup right. |
| Scenarios.LeftoverCapWrapsWithNoRights | security/capsicum.c:578-590 | A capability left armed by an `openat` that installed nothing wraps the next installed file, from an unrelated call, with rights 0. |
| Scenarios.FullTableRefusesDerive | security/capsicum.c:266-273 | Deriving a capability when no descriptor is free returns the descriptor allocator's error (EMFILE) and leaves the table unchanged. |
| Scenarios.SharedCredentialsGetPrivateState | security/capsicum.c:118-154 | When a second thread comes to share the first thread's credentials, its next call gets private state that does not contain the first thread's records. The first thread's records survive. |
| Scenarios.ErrPtrLeftArmedAsWritten | security/capsicum.c:381-391 | Two intercepted `openat` calls on a directory capability, as written: the first fails its pre-allocation with ENOMEM, and the second is let through with the error pointer still in the slot, which the install hook cannot safely use. |
| Scenarios.ErrPtrNeverArmed | security/capsicum.c:381-391 | With the corrected step, the same two intercepted calls give ENOMEM and then 0, and leave a real capability armed and the slot safe. |

## Behaviour of the code that the model keeps

These are properties of `security/capsicum.c` as written. The model keeps them rather than correcting them.

- **Rights reset to 0, not to the unarmed value.**
  - Interception resets the armed rights to 0 (line 366). The install hook treats only all-ones as "not armed" (line 581).
  - An `openat` may arm a capability and then fail before installing a file. That capability then wraps the next file installed, from any call, with rights 0 (`Scenarios.LeftoverCapWrapsWithNoRights`).
  - Likewise, an `openat` through a capability that holds every right arms with all-ones. The install hook then skips wrapping and leaves the capability armed.
  - A capability left armed by a call is kept for reuse by the next call that arms (lines 386-391), and the model does the same. An error pointer left by a failed allocation is kept and reused the same way (see Findings).
- **The record comes before the rights check.** `capsicum_require_rights` writes its record before comparing rights (lines 332-339). A refused check therefore still leaves a record (`Pending.RequireSpec`).
- **Reallocation does not copy.** Reallocation replaces the record arrays without copying them (lines 177-195). `Pending.PendingSyscall.Realloc` promises nothing about the new contents.
- **Arming reads slot 0 unconditionally.** Arming reads record slot 0 whatever the table recorded during this call (line 371).
- **Freeing credentials uses `put_filp`.**
  - The free hook drops an armed capability with `put_filp` (line 632), not through the capability release routine. It never calls `capsicum_release`.
  - The model returns the capability from `Pending.CredFree` and does not release it.

## Left out

- RCU locking, file reference counts (`get_file`, `fput`, `atomic_long_inc_not_zero`), `kfree` and `put_unused_fd`.
  - A reference that cannot be taken is the `refOk` parameter of `Caps.CapNew`.
  - Freeing is not modelled. A freed object simply stops being reachable.
- The real descriptor table, `get_unused_fd` and `fd_install`. The table is a map, and the descriptor handed out is a parameter.
- The syscall rights table (`capsicum_syscall_table.h`, `capsicum_run_syscall_table`) is not part of this model.
  - A call's requirements are given as a list, checked in order, that stops at the first refusal.
  - The table's own calls to reallocation are therefore not modelled. Reallocation is modelled on its own.
- The numeric values of the error numbers and of the rights bits. The scenario rights are placeholders.
- Registration (`capsicum_init`), `capsicum_show_fdinfo`, the panic file operations and `printk`.
- The `arch` argument of interception is not modelled. System call numbers are the x86-64 ones.
- Caps.CapAlloc: an error from `anon_inode_getfile` is reported as ENOMEM rather than as that call's own error.
- Caps.CapGetrights: the copy of the rights to user memory (`put_user`) is not modelled, and its failure is ignored, as the source ignores it.
- Caps.InstallFd: installing from a capability that wraps nothing is a precondition. The source would take a reference on NULL.
- Hooks.FileLookup: in capability mode, a capability lookup for a descriptor this call never recorded halts the kernel (`BUG_ON`). This is a precondition here.
- Hooks.PathLookup: the `dentry` argument is unused by the source and not modelled. The name is the C string without its terminator.
- Hooks.FileInstall: an error pointer in the armed slot is excluded by precondition only when the hook would wrap a plain file with it (rights not all-ones), where the source dereferences it (see Findings).
- Pending.CredFree: an error pointer in the armed slot is excluded by precondition, since the source frees any non-NULL slot (see Findings).
- Pending.PendingSyscall.constructor: the fields `kmalloc` leaves uninitialised are unconstrained, and so are the contents of fresh record arrays.
- Concurrency between threads. Threads are objects compared by identity, and runs are sequential.

## Findings

| source | as written | input that shows it | evidently intended | confidence | as-written member | corrected member |
|---|---|---|---|---|---|---|
| security/capsicum.c:381-385 | The result of `capsicum_cap_alloc()` is stored in `next_new_cap` before it is tested with `IS_ERR`, so a failed allocation leaves an error pointer in the slot. The next `openat` on a capability sees a non-NULL slot and skips allocation. The install and credential-free hooks would then use the error pointer as a file. | An `openat` on a capability whose pre-allocation fails (`capOk` false), followed by another `openat` on a capability (`Scenarios.ErrPtrLeftArmedAsWritten`, through `Intercept.InterceptSyscall` with `corrected` false). | Store the capability only once the allocation has succeeded, leaving the slot NULL on failure. | not executed; medium | Intercept.PreallocateAsWritten | Intercept.Preallocate |

=== FILE: capability.dfy ===
/**
 * Capability objects: a file that wraps another, underlying file together with
 * a rights mask, and the administrative system calls that create and inspect them.
 */
module Caps {
  import opened CapsicumTypes

  /**
   * A `struct file` as this layer sees it: either an ordinary file, identified
   * by an opaque id, or a capability wrapper. Two files are the same file exactly
   * when these values are equal; capability wrappers compare by object identity.
   */
  datatype File = Plain(id: nat) | CapFile(cap: Capability)
  {
    /** The heap object holding this file's capability state, if it has any. */
    function Repr(): set<object>
    {
      if CapFile? then {cap} else {}
    }
  }

  /** `struct capsicum_capability`: the rights and the wrapped file (None stands for NULL). */
  class Capability {
    var rights: Rights
    var underlying: Option<File>

    /** A zero-filled capability, as `kzalloc` leaves it. */
    constructor ()
      ensures rights == 0 && underlying == None
    {
      rights := 0;
      underlying := None;
    }
  }

  /** Capabilities do not stack: what a capability wraps is never itself a capability. */
  ghost predicate Unstacked(c: Capability)
    reads c
  {
    c.underlying.None? || c.underlying.value.Plain?
  }

  /** The capability objects reachable from a descriptor table. */
  function CapsOf(fdt: map<Fd, File>): set<Capability>
  {
    set fd | fd in fdt && fdt[fd].CapFile? :: fdt[fd].cap
  }

  /** Every capability installed in the descriptor table wraps an ordinary file. */
  ghost predicate TableUnstacked(fdt: map<Fd, File>)
    reads CapsOf(fdt)
  {
    forall fd :: fd in fdt && fdt[fd].CapFile? ==> Unstacked(fdt[fd].cap)
  }

  /**
   * `capsicum_unwrap`'s return value: the wrapped file of a capability, and NULL
   * for anything that is not a capability (so it doubles as a type test).
   */
  function Unwrap(f: File): (r: Option<File>)
    reads f.Repr()
    ensures r.Some? ==> f.CapFile?
  {
    if f.CapFile? then f.cap.underlying else None
  }

  /**
   * The rights `capsicum_unwrap` stores through its `rights` argument, starting
   * from the all-ones default every caller initialises it with.
   */
  function RightsOf(f: File): (r: Rights)
    reads f.Repr()
    ensures f.Plain? ==> r == ALL_RIGHTS
  {
    if f.CapFile? then f.cap.rights else ALL_RIGHTS
  }

  /** The file a new capability derived from `f` points at: `f` itself, or what `f` wraps. */
  function Innermost(f: File): (r: File)
    reads f.Repr()
    ensures Unwrap(f).Some? ==> Some(r) == Unwrap(f)
    ensures Unwrap(f).None? ==> r == f
  {
    if f.CapFile? && f.cap.underlying.Some? then f.cap.underlying.value else f
  }

  /**
   * `capsicum_cap_alloc`: a fresh, zeroed capability object; `allocOk` is the
   * outcome of the two kernel allocations it makes.
   */
  method CapAlloc(allocOk: bool) returns (r: Result<Capability>)
    ensures r.Success? <==> allocOk
    ensures r.Failure? ==> r.errno == ENOMEM
    ensures r.Success? ==> fresh(r.value) && r.value.rights == 0 && r.value.underlying == None
  {
    if !allocOk {
      return Failure(ENOMEM);
    }
    var cap := new Capability();
    r := Success(cap);
  }

  /** `capsicum_cap_set`: point an allocated capability at a file with the given rights. */
  method CapSet(c: Capability, underlying: File, rights: Rights)
    modifies c
    ensures Unwrap(CapFile(c)) == Some(underlying)
    ensures RightsOf(CapFile(c)) == rights
    ensures underlying.Plain? ==> Unstacked(c)
  {
    c.underlying := Some(underlying);
    c.rights := rights;
  }

  /**
   * `capsicum_release`: dropping a capability drops its reference to the wrapped
   * file (returned in `dropped`, the file whose reference count `fput` lowers).
   */
  method Release(f: File) returns (r: Status, dropped: Option<File>)
    modifies f.Repr()
    ensures f.Plain? ==> r == Err(EINVAL) && dropped == None
    ensures f.CapFile? ==> r == Ok && dropped == old(f.cap.underlying) && Unwrap(f) == None
  {
    if !f.CapFile? {
      return Err(EINVAL), None;
    }
    dropped := f.cap.underlying;
    f.cap.underlying := None;
    r := Ok;
  }

  /**
   * `capsicum_install_fd`: wrap `orig` in a new capability with exactly `rights`
   * and install it at the descriptor `get_unused_fd` hands out (`unusedFd`, or
   * its error). A capability is unwrapped first, so wrappers never stack.
   */
  method InstallFd(orig: File, rights: Rights, fdt: map<Fd, File>, unusedFd: Result<Fd>, allocOk: bool)
    returns (r: Result<Fd>, fdt': map<Fd, File>)
    requires unusedFd.Success? ==> unusedFd.value !in fdt
    requires orig.CapFile? ==> orig.cap.underlying.Some?
    ensures r.Success? <==> unusedFd.Success? && allocOk
    ensures unusedFd.Failure? ==> r == unusedFd
    ensures unusedFd.Success? && !allocOk ==> r == Failure(ENOMEM)
    ensures r.Failure? ==> fdt' == fdt
    ensures r.Success? ==>
      && r.value == unusedFd.value
      && r.value in fdt'
      && fdt' == fdt[r.value := fdt'[r.value]]
      && fdt'[r.value].CapFile?
      && fresh(fdt'[r.value].cap)
      && Unwrap(fdt'[r.value]) == Some(Innermost(orig))
      && RightsOf(fdt'[r.value]) == rights
    ensures r.Success? && (orig.Plain? || Unstacked(orig.cap)) ==> Unstacked(fdt'[r.value].cap)
  {
    fdt' := fdt;
    if unusedFd.Failure? {
      return unusedFd, fdt';
    }
    var fd := unusedFd.value;
    var file := CapAlloc(allocOk);
    if file.Failure? {
      return Failure(file.errno), fdt';
    }
    var target := orig;
    if orig.CapFile? {
      target := orig.cap.underlying.value;
    }
    CapSet(file.value, target, rights);
    fdt' := fdt[fd := CapFile(file.value)];
    r := Success(fd);
  }

  /**
   * `cap_getrights(fd)`: the rights of the capability at `fd`; EBADF when nothing
   * is installed there, EINVAL when it is not a capability.
   */
  function CapGetrights(fdt: map<Fd, File>, fd: Fd): (r: Result<Rights>)
    reads CapsOf(fdt)
    ensures r == Failure(EBADF) <==> fd !in fdt
    ensures r == Failure(EINVAL) <==> fd in fdt && fdt[fd].Plain?
    ensures r.Success? <==> fd in fdt && fdt[fd].CapFile?
    ensures r.Success? ==> r.value == fdt[fd].cap.rights
  {
    if fd !in fdt then Failure(EBADF)
    else if fdt[fd].Plain? then Failure(EINVAL)
    else Success(RightsOf(fdt[fd]))
  }

  /**
   * `cap_new(origFd, newRights)` (with `do_sys_cap_new`): derive a capability from
   * the file at `origFd` whose rights are `newRights` narrowed to the source's.
   * `refOk` is whether a reference to the file could still be taken.
   */
  method CapNew(enabled: bool, origFd: Fd, newRights: Rights, fdt: map<Fd, File>,
                refOk: bool, unusedFd: Result<Fd>, allocOk: bool)
    returns (r: Result<Fd>, fdt': map<Fd, File>)
    requires TableUnstacked(fdt)
    requires unusedFd.Success? ==> unusedFd.value !in fdt
    ensures !enabled ==> r == Failure(ENOSYS)
    ensures enabled && (origFd !in fdt || (fdt[origFd].CapFile? && Unwrap(fdt[origFd]).None?) || !refOk) ==>
              r == Failure(EBADF)
    ensures enabled && origFd in fdt && (fdt[origFd].Plain? || Unwrap(fdt[origFd]).Some?) && refOk ==>
      && (r.Success? <==> unusedFd.Success? && allocOk)
      && (unusedFd.Failure? ==> r == unusedFd)
      && (unusedFd.Success? && !allocOk ==> r == Failure(ENOMEM))
    ensures r.Failure? ==> fdt' == fdt
    ensures r.Success? ==>
      && enabled && origFd in fdt
      && unusedFd == Success(r.value) && r.value in fdt'
      && fdt' == fdt[r.value := fdt'[r.value]]
      && CapGetrights(fdt', r.value) == Success(NarrowRights(newRights, RightsOf(fdt[origFd])))
      && Unwrap(fdt'[r.value]) == Some(Innermost(fdt[origFd]))
      && Innermost(fdt[origFd]).Plain?
      && TableUnstacked(fdt')
  {
    fdt' := fdt;
    if !enabled {
      return Failure(ENOSYS), fdt';
    }
    if origFd !in fdt {
      return Failure(EBADF), fdt';
    }
    var file := fdt[origFd];
    var existingRights := ALL_RIGHTS;
    if file.CapFile? {
      existingRights := RightsOf(file);
      var u := Unwrap(file);
      if u.None? {
        return Failure(EBADF), fdt';
      }
      file := u.value;
    }
    if !refOk {
      return Failure(EBADF), fdt';
    }
    r, fdt' := InstallFd(file, NarrowRights(newRights, existingRights), fdt, unusedFd, allocOk);
    if r.Success? {
      forall fd | fd in fdt' && fdt'[fd].CapFile?
        ensures Unstacked(fdt'[fd].cap)
      {
        if fd != r.value {
          assert fdt'[fd] == fdt[fd];
        }
      }
    }
  }
}

=== FILE: capsicum_types.dfy ===
/** Integer widths, error numbers and rights masks shared by the Capsicum model. */
module CapsicumTypes {

  datatype Option<T> = None | Some(value: T)

  /** `unsigned int`: the kernel's type for a file descriptor number. */
  type Fd = x: int | 0 <= x < 0x1_0000_0000

  /** `unsigned long`: the type of a raw system-call argument. */
  type ULong = x: int | 0 <= x < 0x1_0000_0000_0000_0000

  /** AT_FDCWD (-100) as it arrives in an `unsigned long` system-call argument. */
  const AT_FDCWD_ARG: ULong := 0x1_0000_0000_0000_0000 - 100

  /** The implicit C conversion of an `unsigned long` argument to an `unsigned int` descriptor. */
  function ToFd(x: ULong): (fd: Fd)
    ensures x < 0x1_0000_0000 ==> fd == x
    ensures fd <= x
  {
    x % 0x1_0000_0000
  }

  /** A `u64` rights mask; each bit position permits one class of operation. */
  type Rights = bv64

  /** `(u64)-1`: every right. A file that is not a capability is treated as holding these. */
  const ALL_RIGHTS: Rights := 0xFFFF_FFFF_FFFF_FFFF

  /** The error numbers this layer returns (negated in the kernel's return convention). */
  datatype Errno = ECAPMODE | EBADF | ENOMEM | ENOTCAPABLE | EINVAL | ENOSYS | EMFILE

  /** An `int` return code: 0, or a negated error number. */
  datatype Status = Ok | Err(errno: Errno)

  /** A non-negative result, or a negated error number. */
  datatype Result<T> = Success(value: T) | Failure(errno: Errno)

  /** The rights test of `capsicum_require_rights`: every required bit is present. */
  predicate HasRights(actual: Rights, required: Rights)
  {
    actual & required == required
  }

  /** The rights `cap_new` installs: the requested ones, cut down to those the source holds. */
  function NarrowRights(requested: Rights, existing: Rights): (r: Rights)
    ensures r & !existing == 0
    ensures existing == ALL_RIGHTS ==> r == requested
  {
    requested & existing
  }
}

=== FILE: hooks.dfy ===
/**
 * The security hooks the VFS calls while a system call runs: looking a
 * descriptor up (where the anti-TOCTOU records are checked and capabilities
 * are unwrapped), installing a new file in the descriptor table (where the
 * capability armed for `openat` wraps it), and path lookup in capability mode.
 */
module Hooks {
  import opened CapsicumTypes
  import opened Caps
  import opened Pending

  /** The capability object armed in the current thread's state, if any. */
  function ArmedRepr(current: Task): set<object>
    reads current, current.cred, current.cred.security
  {
    var p := GetPendingSyscall(current);
    if p != null && p.nextNewCap.Ptr? then {p.nextNewCap.cap} else {}
  }

  /**
   * `capsicum_file_lookup(file, fd)`: the file the system call will use for
   * descriptor `fd`, which currently refers to `file`. Anything that does not
   * unwrap is returned as it is. A capability is replaced by what it wraps,
   * unless the thread is in capability mode (`capMode`) and a record of this
   * call names `fd` with another file, in which case the lookup fails (None
   * for NULL). Every record is examined, not only the first for `fd`.
   *
   * In capability mode the kernel halts (BUG_ON) when no record names `fd`;
   * that is a precondition here.
   */
  method FileLookup(file: File, fd: Fd, current: Task, capMode: bool) returns (r: Option<File>)
    requires StateValid(current)
    requires Unwrap(file).Some? && GetPendingSyscall(current) != null && capMode ==>
      Matches(GetPendingSyscall(current).View(), fd)
    ensures Unwrap(file).None? ==> r == Some(file)
    ensures Unwrap(file).Some? ==>
      (r.None? <==> GetPendingSyscall(current) != null && capMode && Mismatch(GetPendingSyscall(current).View(), fd, file))
    ensures r.Some? && Unwrap(file).Some? ==> r == Unwrap(file)
  {
    var underlying := Unwrap(file);
    if underlying.None? {
      return Some(file);
    }
    var pending := GetPendingSyscall(current);
    if pending != null && capMode {
      ghost var v := pending.View();
      var found := false;
      var i := 0;
      while i < pending.nextFree
        invariant 0 <= i <= pending.nextFree
        invariant found <==> exists j :: 0 <= j < i && v.fds[j] == fd
        invariant forall j :: 0 <= j < i && v.fds[j] == fd ==> v.files[j] == file
      {
        if pending.fds[i] == fd {
          found := true;
          if pending.files[i] != file {
            return None;
          }
        }
        i := i + 1;
      }
      assert found;
    }
    r := underlying;
  }

  /**
   * `capsicum_file_install(file, fd)`: the file to store in the descriptor
   * table for a newly created `file`. When a capability is armed it wraps
   * `file` with the armed rights and the thread's state is disarmed;
   * otherwise `file` is stored as it is. Only the all-ones rights value counts
   * as "not armed" here, although interception resets the rights to zero.
   *
   * The source dereferences the slot only when it wraps, so an error pointer
   * left there by a failed pre-allocation is excluded by precondition in that
   * case alone.
   */
  method FileInstall(file: File, fd: Fd, current: Task) returns (r: File)
    requires StateValid(current)
    requires var p := GetPendingSyscall(current);
      p != null && file.Plain? && p.newCapRights != ALL_RIGHTS ==> p.SlotSafe()
    modifies OwnedRepr(current), ArmedRepr(current)
    ensures StateValid(current)
    ensures GetPendingSyscall(current) == old(GetPendingSyscall(current))
    ensures file.CapFile? || GetPendingSyscall(current) == null ==> r == file
    ensures var p := GetPendingSyscall(current);
      p != null && (file.CapFile? || old(p.newCapRights) == ALL_RIGHTS || old(p.nextNewCap).Null?) ==>
        r == file && p.nextNewCap == old(p.nextNewCap) && p.newCapRights == old(p.newCapRights)
    ensures var p := GetPendingSyscall(current);
      p != null && (file.CapFile? || old(p.newCapRights) == ALL_RIGHTS || old(p.nextNewCap).Null?) ==>
        unchanged(old(ArmedRepr(current)))
    ensures var p := GetPendingSyscall(current);
      p != null && file.Plain? && old(p.newCapRights) != ALL_RIGHTS && old(p.nextNewCap).Ptr? ==>
        && r == CapFile(old(p.nextNewCap).cap)
        && Unwrap(r) == Some(file)
        && RightsOf(r) == old(p.newCapRights)
        && Unstacked(r.cap)
        && p.nextNewCap == Null && p.newCapRights == 0
    ensures var p := GetPendingSyscall(current); p != null ==> p.View() == old(p.View())
  {
    if file.CapFile? {
      return file;
    }
    var pending := GetPendingSyscall(current);
    if pending == null {
      return file;
    }
    if pending.newCapRights == ALL_RIGHTS || pending.nextNewCap.Null? {
      return file;
    }
    var capf := pending.nextNewCap.cap;
    CapSet(capf, file, pending.newCapRights);
    pending.nextNewCap := Null;
    pending.newCapRights := 0;
    r := CapFile(capf);
  }

  /** The character at `i` of a NUL-terminated string whose characters before the terminator are `name`. */
  function CharAt(name: string, i: nat): (c: char)
    ensures i < |name| ==> c == name[i]
    ensures i >= |name| ==> c == '\0'
  {
    if i < |name| then name[i] else '\0'
  }

  /**
   * `capsicum_path_lookup(dentry, name)`: in capability mode, refuse a path
   * segment that is `..` (alone or followed by `/`) or that is absolute.
   * `name` is the C string without its terminator.
   */
  function PathLookup(capMode: bool, name: string): (r: Status)
    requires '\0' !in name
    ensures r == Ok || r == Err(ECAPMODE)
    ensures r == Err(ECAPMODE) <==>
      capMode && (name == ".." || (|name| >= 3 && name[..3] == "../") || (|name| >= 1 && name[0] == '/'))
  {
    if !capMode then Ok
    else if CharAt(name, 0) == '.' && CharAt(name, 1) == '.' && (CharAt(name, 2) == '\0' || CharAt(name, 2) == '/') then
      Err(ECAPMODE)
    else if CharAt(name, 0) == '/' then Err(ECAPMODE)
    else Ok
  }

  /**
   * Assuming the VFS calls the path hook for each segment with the rest of
   * the path from that segment on (the hook's test for `/` after `..`
   * suggests this; the VFS is not part of this model): absolute and upward
   * names are refused, `a/../b` is refused when the walk reaches its `..`
   * segment, and names that only look like `..` are accepted.
   */
  lemma PathLookupSegments()
    ensures PathLookup(true, "/etc/passwd") == Err(ECAPMODE)
    ensures PathLookup(true, "etc/passwd") == Ok && PathLookup(true, "passwd") == Ok
    ensures PathLookup(true, "../x") == Err(ECAPMODE)
    ensures PathLookup(true, "a/../b") == Ok && PathLookup(true, "../b") == Err(ECAPMODE)
    ensures PathLookup(true, "a/b") == Ok && PathLookup(true, "b") == Ok
    ensures PathLookup(true, ".") == Ok && PathLookup(true, "...") == Ok && PathLookup(true, "..a") == Ok
    ensures PathLookup(false, "/etc/passwd") == Ok && PathLookup(false, "..") == Ok
  {
  }
}

=== FILE: intercept.dfy ===
/**
 * `capsicum_intercept_syscall`: the entry point run for each system call. It
 * resets the thread's records, runs the call's rights requirements through
 * `capsicum_require_rights`, and for `openat` on a capability arms a
 * pre-allocated capability to wrap the file the call will create.
 */
module Intercept {
  import opened CapsicumTypes
  import opened Caps
  import opened Pending

  /** x86-64 system call numbers. */
  const NR_WRITE: int := 1
  const NR_OPENAT: int := 257

  /** One requirement of the syscall table: a raw argument naming a descriptor, and the rights it must carry. */
  datatype Check = Check(arg: ULong, rights: Rights)

  /**
   * The syscall table's pass over a call's descriptor arguments: each is put
   * through `capsicum_require_rights` in order, and the first refusal ends the
   * pass and is its result.
   */
  function RunTable(v: RecorderView, fdt: map<Fd, File>, checks: seq<Check>): (res: (Status, RecorderView))
    requires v.Valid()
    reads CapsOf(fdt)
    ensures res.1.Valid() && |res.1.fds| == |v.fds|
    ensures v.nextFree <= res.1.nextFree <= v.nextFree + |checks|
    ensures res.0 == Ok ==> res.1.nextFree == v.nextFree + |checks|
    decreases |checks|
  {
    if checks == [] then (Ok, v)
    else
      var step := RequireSpec(v, fdt, checks[0].arg, checks[0].rights);
      if step.0 != Ok then step else RunTable(step.1, fdt, checks[1..])
  }

  /**
   * A pass that succeeds has, for every argument in order, resolved it, found
   * the rights it needs, and recorded its descriptor and file in the next
   * slot; the records made before the pass are kept.
   */
  lemma {:induction false} RunTableRecords(v: RecorderView, fdt: map<Fd, File>, checks: seq<Check>)
    requires v.Valid() && RunTable(v, fdt, checks).0 == Ok
    decreases |checks|
    ensures var w := RunTable(v, fdt, checks).1;
      forall i :: 0 <= i < |checks| ==>
        && checks[i].arg != AT_FDCWD_ARG
        && ToFd(checks[i].arg) in fdt
        && HasRights(RightsOf(fdt[ToFd(checks[i].arg)]), checks[i].rights)
        && w.fds[v.nextFree + i] == ToFd(checks[i].arg)
        && w.files[v.nextFree + i] == fdt[ToFd(checks[i].arg)]
    ensures var w := RunTable(v, fdt, checks).1;
      forall i :: 0 <= i < v.nextFree ==> w.fds[i] == v.fds[i] && w.files[i] == v.files[i]
  {
    if checks != [] {
      var step := RequireSpec(v, fdt, checks[0].arg, checks[0].rights);
      var w := RunTable(v, fdt, checks).1;
      RunTableRecords(step.1, fdt, checks[1..]);
      forall i | 0 <= i < |checks|
        ensures checks[i].arg != AT_FDCWD_ARG && ToFd(checks[i].arg) in fdt
        ensures HasRights(RightsOf(fdt[ToFd(checks[i].arg)]), checks[i].rights)
        ensures w.fds[v.nextFree + i] == ToFd(checks[i].arg)
        ensures w.files[v.nextFree + i] == fdt[ToFd(checks[i].arg)]
      {
        if i > 0 {
          assert checks[1..][i - 1] == checks[i];
        }
      }
    }
  }

  /**
   * The anti-TOCTOU guarantee: after a successful pass, any file other than the
   * one checked for argument `k` is caught by the records as a mismatch for
   * that descriptor, and a record for it exists.
   */
  lemma ToctouDetected(v: RecorderView, fdt: map<Fd, File>, checks: seq<Check>, k: int, g: File)
    requires v.Valid() && RunTable(v, fdt, checks).0 == Ok
    requires 0 <= k < |checks|
    requires ToFd(checks[k].arg) !in fdt || g != fdt[ToFd(checks[k].arg)]
    ensures Matches(RunTable(v, fdt, checks).1, ToFd(checks[k].arg))
    ensures Mismatch(RunTable(v, fdt, checks).1, ToFd(checks[k].arg), g)
  {
    RunTableRecords(v, fdt, checks);
    var w := RunTable(v, fdt, checks).1;
    assert w.fds[v.nextFree + k] == ToFd(checks[k].arg);
  }

  /** After a reset and a successful pass, slot 0 holds the file of the first argument. */
  lemma FirstRecordIsFirstArgument(v: RecorderView, fdt: map<Fd, File>, checks: seq<Check>)
    requires v.Valid() && v.nextFree == 0 && RunTable(v, fdt, checks).0 == Ok && |checks| > 0
    ensures ToFd(checks[0].arg) in fdt
    ensures RunTable(v, fdt, checks).1.files[0] == fdt[ToFd(checks[0].arg)]
  {
    RunTableRecords(v, fdt, checks);
  }

  /** The syscall table run on the thread's state: the requirements `checks` checked in order. */
  method RunSyscallTable(p: PendingSyscall, fdt: map<Fd, File>, checks: seq<Check>) returns (r: Status)
    requires p.Valid()
    modifies p`nextFree, p.fds, p.files
    ensures p.Valid()
    ensures (r, p.View()) == RunTable(old(p.View()), fdt, checks)
  {
    ghost var v0 := p.View();
    var i := 0;
    while i < |checks|
      invariant 0 <= i <= |checks|
      invariant p.Valid() && unchanged(CapsOf(fdt))
      invariant RunTable(v0, fdt, checks) == RunTable(p.View(), fdt, checks[i..])
    {
      ghost var before := p.View();
      assert checks[i..][0] == checks[i] && checks[i..][1..] == checks[i + 1..];
      r := p.RequireRights(checks[i].arg, checks[i].rights, fdt);
      assert RunTable(before, fdt, checks[i..]) ==
        if r != Ok then (r, p.View()) else RunTable(p.View(), fdt, checks[i + 1..]);
      if r != Ok {
        return;
      }
      i := i + 1;
    }
    r := Ok;
  }

  /**
   * Lines 381-385 as written: the result of `capsicum_cap_alloc` is stored in
   * `next_new_cap` before it is tested, so a failed allocation leaves an error
   * pointer there, which the next test for NULL takes for an armed capability.
   */
  method PreallocateAsWritten(p: PendingSyscall, capOk: bool) returns (r: Status)
    modifies p`nextNewCap
    ensures old(p.nextNewCap) != Null ==> r == Ok && p.nextNewCap == old(p.nextNewCap)
    ensures old(p.nextNewCap) == Null && capOk ==> r == Ok && p.nextNewCap.Ptr? && fresh(p.nextNewCap.cap)
    ensures old(p.nextNewCap) == Null && !capOk ==>
      r == Err(ENOMEM) && p.nextNewCap == ErrPtr(ENOMEM) && !p.SlotSafe()
  {
    if p.nextNewCap == Null {
      var c := CapAlloc(capOk);
      p.nextNewCap := if c.Success? then Ptr(c.value) else ErrPtr(c.errno);
      if p.nextNewCap.ErrPtr? {
        return Err(p.nextNewCap.err);
      }
    }
    r := Ok;
  }

  /**
   * The pre-allocation step with the allocation tested before it is stored:
   * a failure leaves `next_new_cap` NULL, so the slot never holds an error
   * pointer.
   */
  method Preallocate(p: PendingSyscall, capOk: bool) returns (r: Status)
    modifies p`nextNewCap
    ensures old(p.SlotSafe()) ==> p.SlotSafe()
    ensures old(p.nextNewCap) != Null ==> r == Ok && p.nextNewCap == old(p.nextNewCap)
    ensures old(p.nextNewCap) == Null && capOk ==> r == Ok && p.nextNewCap.Ptr? && fresh(p.nextNewCap.cap)
    ensures old(p.nextNewCap) == Null && !capOk ==> r == Err(ENOMEM) && p.nextNewCap == Null
  {
    if p.nextNewCap == Null {
      var c := CapAlloc(capOk);
      if c.Failure? {
        return Err(c.errno);
      }
      p.nextNewCap := Ptr(c.value);
    }
    r := Ok;
  }

  /**
   * The call is `openat`, its checks passed, and the directory argument it was
   * checked against (`dir`) is a capability: the new file must be wrapped.
   */
  predicate ArmsNewCap(status: Status, callnr: int, dir: File)
    reads dir.Repr()
  {
    status == Ok && callnr == NR_OPENAT && Unwrap(dir).Some?
  }

  /**
   * The tail of `capsicum_intercept_syscall`: after the table's checks ended
   * with `status`, arm a capability (the one left in the slot by an earlier
   * call, or a new one) with the directory's rights when the call is `openat`
   * on a capability. With `corrected` false the allocation is the step as
   * written (`PreallocateAsWritten`), so a failure leaves an error pointer in
   * the slot and a later call reuses it like a capability; with `corrected`
   * true it is the fixed step (`Preallocate`).
   */
  method ArmForOpenat(p: PendingSyscall, status: Status, callnr: int, capOk: bool, corrected: bool) returns (r: Status)
    requires p.Valid() && p.newCapRights == 0
    modifies p`nextNewCap, p`newCapRights
    ensures corrected && old(p.SlotSafe()) ==> p.SlotSafe()
    ensures ArmsNewCap(status, callnr, p.files[0]) ==>
      && (old(p.nextNewCap) != Null ==>
            r == Ok && p.nextNewCap == old(p.nextNewCap) && p.newCapRights == RightsOf(p.files[0]))
      && (old(p.nextNewCap).Null? && capOk ==>
            r == Ok && p.nextNewCap.Ptr? && fresh(p.nextNewCap.cap) && p.newCapRights == RightsOf(p.files[0]))
      && (old(p.nextNewCap).Null? && !capOk ==>
            && r == Err(ENOMEM) && p.newCapRights == 0
            && p.nextNewCap == (if corrected then Null else ErrPtr(ENOMEM)))
    ensures !ArmsNewCap(status, callnr, p.files[0]) ==>
      r == status && p.nextNewCap == old(p.nextNewCap) && p.newCapRights == 0
  {
    r := status;
    if status == Ok && callnr == NR_OPENAT && Unwrap(p.files[0]).Some? {
      var existingRights := RightsOf(p.files[0]);
      var armed;
      if corrected {
        armed := Preallocate(p, capOk);
      } else {
        armed := PreallocateAsWritten(p, capOk);
      }
      if armed != Ok {
        return armed;
      }
      p.newCapRights := existingRights;
    }
  }

  /**
   * The body of `capsicum_intercept_syscall` once the thread's state `p` is
   * at hand: reset the cursor and the armed rights, run the table's checks,
   * and arm for `openat` on a capability. `start` is the records as the table
   * finds them and `leftover` what an earlier call left in the slot.
   */
  method CheckAndArm(p: PendingSyscall, callnr: int, checks: seq<Check>, fdt: map<Fd, File>, capOk: bool, corrected: bool)
    returns (r: Status, ghost start: RecorderView, ghost leftover: CapPtr)
    requires p.Valid()
    modifies p, p.fds, p.files
    ensures p.Valid()
    ensures corrected && old(p.SlotSafe()) ==> p.SlotSafe()
    ensures p.fds == old(p.fds) && p.files == old(p.files) && p.task == old(p.task)
    ensures start == RecorderView(old(p.fds[..]), old(p.files[..]), 0) && leftover == old(p.nextNewCap)
    ensures
      var res := RunTable(start, fdt, checks);
      && p.View() == res.1
      && (if ArmsNewCap(res.0, callnr, res.1.files[0]) then
            && (leftover != Null ==> r == Ok && p.nextNewCap == leftover && p.newCapRights == RightsOf(res.1.files[0]))
            && (leftover.Null? && capOk ==>
                  r == Ok && p.nextNewCap.Ptr? && fresh(p.nextNewCap.cap) && p.newCapRights == RightsOf(res.1.files[0]))
            && (leftover.Null? && !capOk ==>
                  && r == Err(ENOMEM) && p.newCapRights == 0
                  && p.nextNewCap == (if corrected then Null else ErrPtr(ENOMEM)))
          else
            r == res.0 && p.nextNewCap == leftover && p.newCapRights == 0)
  {
    p.nextFree := 0;
    p.newCapRights := 0;
    start := p.View();
    leftover := p.nextNewCap;
    r := RunSyscallTable(p, fdt, checks);
    ghost var view := p.View();
    r := ArmForOpenat(p, r, callnr, capOk, corrected);
    assert p.View() == view;
    assert unchanged(CapsOf(fdt));
  }

  /**
   * `capsicum_intercept_syscall(callnr)`, with the syscall table's
   * requirements for this call given as `checks`. With `corrected` false this
   * is the code as written; with `corrected` true the pre-allocation tests the
   * allocation before storing it, so the slot never comes to hold an error
   * pointer. The ghost results name the state used (`p`), the records as the
   * table found them (`start`) and what an earlier call left in the slot
   * (`leftover`).
   */
  method InterceptSyscall(enabled: bool, current: Task, callnr: int, checks: seq<Check>, fdt: map<Fd, File>,
                          credOk: bool, blankOk: bool, pendingOk: bool, capOk: bool, corrected: bool)
    returns (r: Status, ghost p: PendingSyscall?, ghost start: RecorderView, ghost leftover: CapPtr)
    requires StateValid(current)
    modifies current, OwnedRepr(current)
    ensures StateValid(current)
    ensures !enabled ==> r == Ok && p == null && unchanged(current) && unchanged(old(OwnedRepr(current)))
    ensures enabled && old(GetPendingSyscall(current)) != null ==> p != null
    ensures enabled && old(GetPendingSyscall(current)) == null ==> (p != null <==> credOk && pendingOk)
    ensures p == null ==> current.cred == old(current.cred) && unchanged(old(OwnedRepr(current)))
    ensures enabled && p == null ==> r == Err(ENOMEM)
    ensures p != null ==> enabled && GetPendingSyscall(current) == p && p.Valid()
    ensures p != null && old(GetPendingSyscall(current)) != null ==>
      && p == old(GetPendingSyscall(current)) && current.cred == old(current.cred)
      && p.fds == old(p.fds) && p.files == old(p.files)
      && leftover == old(p.nextNewCap)
      && start == RecorderView(old(p.fds[..]), old(p.files[..]), 0)
    ensures p != null && old(GetPendingSyscall(current)) == null ==>
      fresh(p) && fresh(p.fds) && fresh(p.files) && leftover == Null && |start.fds| == INLINE_SLOTS
    ensures p != null ==> start.Valid() && start.nextFree == 0
    ensures corrected && p != null && !leftover.ErrPtr? ==> p.SlotSafe()
    ensures p != null ==>
      var res := RunTable(start, fdt, checks);
      && p.View() == res.1
      && (if ArmsNewCap(res.0, callnr, res.1.files[0]) then
            && (leftover != Null ==> r == Ok && p.nextNewCap == leftover && p.newCapRights == RightsOf(res.1.files[0]))
            && (leftover.Null? && capOk ==>
                  r == Ok && p.nextNewCap.Ptr? && fresh(p.nextNewCap.cap) && p.newCapRights == RightsOf(res.1.files[0]))
            && (leftover.Null? && !capOk ==>
                  && r == Err(ENOMEM) && p.newCapRights == 0
                  && p.nextNewCap == (if corrected then Null else ErrPtr(ENOMEM)))
          else
            r == res.0 && p.nextNewCap == leftover && p.newCapRights == 0)
  {
    p, start, leftover := null, RecorderView([], [], 0), Null;
    if !enabled {
      return Ok, p, start, leftover;
    }
    var alloc := AllocPendingSyscall(current, credOk, blankOk, pendingOk);
    if alloc.Failure? {
      r := Err(alloc.errno);
      return;
    }
    p := alloc.value;
    r, start, leftover := CheckAndArm(alloc.value, callnr, checks, fdt, capOk, corrected);
  }
}

=== FILE: pending.dfy ===
/**
 * Per-thread pending-syscall state (`struct capsicum_pending_syscall`): the
 * anti-TOCTOU records made while a system call's rights are checked, the
 * capability pre-allocated for `openat`, and the state's ownership by one task
 * through that task's credentials.
 */
module Pending {
  import opened CapsicumTypes
  import opened Caps

  /** ARRAY_SIZE(inline_files): the record capacity before any reallocation. */
  const INLINE_SLOTS: int := 6

  /** A `struct file *` that is NULL, points at a capability, or holds an ERR_PTR-encoded error. */
  datatype CapPtr = Null | Ptr(cap: Capability) | ErrPtr(err: Errno)

  /** A thread (`struct task_struct`), compared by identity; `cred` is its current credentials. */
  class Task {
    var cred: Cred

    constructor (cred: Cred)
      ensures this.cred == cred
    {
      this.cred := cred;
    }
  }

  /** Credentials (`struct cred`); `security` is the pending-syscall state hung off them. */
  class Cred {
    var security: PendingSyscall?

    constructor ()
      ensures security == null
    {
      security := null;
    }
  }

  /**
   * The value of the two record arrays and the cursor: slot `i < nextFree`
   * records that descriptor `fds[i]` was found to refer to `files[i]`.
   */
  datatype RecorderView = RecorderView(fds: seq<Fd>, files: seq<File>, nextFree: int)
  {
    /** The arrays are parallel, never below the inline capacity, and the cursor is within them. */
    predicate Valid()
    {
      |fds| == |files| && INLINE_SLOTS <= |fds| && 0 <= nextFree <= |fds|
    }
  }

  /** Some record of this call is for descriptor `fd`. */
  predicate Matches(v: RecorderView, fd: Fd)
  {
    exists i :: 0 <= i < v.nextFree && i < |v.fds| && v.fds[i] == fd
  }

  /** Some record of this call is for descriptor `fd` but names a file other than `file`. */
  predicate Mismatch(v: RecorderView, fd: Fd, file: File)
  {
    exists i :: 0 <= i < v.nextFree && i < |v.fds| && i < |v.files| && v.fds[i] == fd && v.files[i] != file
  }

  /** `v` with one more record, `(fd, file)`, written at the cursor. */
  function Appended(v: RecorderView, fd: Fd, file: File): (w: RecorderView)
    requires v.Valid() && v.nextFree < |v.fds|
    ensures w.Valid() && |w.fds| == |v.fds| && w.nextFree == v.nextFree + 1
    ensures w.fds[v.nextFree] == fd && w.files[v.nextFree] == file
    ensures forall i :: 0 <= i < |v.fds| && i != v.nextFree ==> w.fds[i] == v.fds[i] && w.files[i] == v.files[i]
  {
    RecorderView(v.fds[v.nextFree := fd], v.files[v.nextFree := file], v.nextFree + 1)
  }

  /**
   * What `capsicum_require_rights` does to the records and what it returns.
   * The AT_FDCWD argument, an unresolvable descriptor and a full record array
   * are refused without recording; otherwise the record is written first and
   * only then are the rights compared, so a refusal for missing rights still
   * leaves its record behind.
   */
  function RequireSpec(v: RecorderView, fdt: map<Fd, File>, fd: ULong, required: Rights): (res: (Status, RecorderView))
    requires v.Valid()
    reads CapsOf(fdt)
    ensures res.1.Valid() && |res.1.fds| == |v.fds|
    ensures res.0 == Err(ECAPMODE) <==> fd == AT_FDCWD_ARG
    ensures res.0 == Err(EBADF) <==> fd != AT_FDCWD_ARG && ToFd(fd) !in fdt
    ensures res.0 == Err(ENOMEM) <==> fd != AT_FDCWD_ARG && ToFd(fd) in fdt && v.nextFree >= |v.fds|
    ensures res.0 == Ok <==>
      fd != AT_FDCWD_ARG && ToFd(fd) in fdt && v.nextFree < |v.fds| && HasRights(RightsOf(fdt[ToFd(fd)]), required)
    ensures res.0 in {Err(ECAPMODE), Err(EBADF), Err(ENOMEM)} ==> res.1 == v
    ensures res.0 in {Ok, Err(ENOTCAPABLE)} ==>
      ToFd(fd) in fdt && v.nextFree < |v.fds| && res.1 == Appended(v, ToFd(fd), fdt[ToFd(fd)])
    ensures res.0 in {Ok, Err(ECAPMODE), Err(EBADF), Err(ENOMEM), Err(ENOTCAPABLE)}
  {
    if fd == AT_FDCWD_ARG then (Err(ECAPMODE), v)
    else if ToFd(fd) !in fdt then (Err(EBADF), v)
    else
      var file := fdt[ToFd(fd)];
      assert file.Repr() <= CapsOf(fdt);
      var actual := RightsOf(file);
      if v.nextFree >= |v.fds| then (Err(ENOMEM), v)
      else
        var w := Appended(v, ToFd(fd), file);
        if HasRights(actual, required) then (Ok, w) else (Err(ENOTCAPABLE), w)
  }

  class PendingSyscall {
    var fds: array<Fd>
    var files: array<File>
    var nextFree: int
    var fdCount: int
    var nextNewCap: CapPtr
    var newCapRights: Rights
    var task: Task

    /** The record arrays have `fdCount` slots, at least the inline ones, and the cursor is within them. */
    ghost predicate Valid()
      reads this
    {
      fds.Length == fdCount && files.Length == fdCount && INLINE_SLOTS <= fdCount && 0 <= nextFree <= fdCount
    }

    /** `next_new_cap` is NULL or a real capability, never an error pointer. */
    predicate SlotSafe()
      reads this
    {
      !nextNewCap.ErrPtr?
    }

    /** The objects this state occupies. */
    function Repr(): set<object>
      reads this
    {
      {this, fds, files}
    }

    /** The records as a value. */
    function View(): (v: RecorderView)
      reads this, fds, files
      ensures Valid() ==> v.Valid() && |v.fds| == fdCount
    {
      RecorderView(fds[..], files[..], nextFree)
    }

    /**
     * Allocation of the structure with its record arrays pointing at the inline
     * storage; the remaining fields are left as the allocator leaves them.
     */
    constructor (owner: Task)
      ensures fresh(fds) && fresh(files)
      ensures fds.Length == INLINE_SLOTS && files.Length == INLINE_SLOTS && fdCount == INLINE_SLOTS
      ensures task == owner
    {
      fds := new Fd[INLINE_SLOTS];
      files := new File[INLINE_SLOTS];
      fdCount := INLINE_SLOTS;
      task := owner;
    }

    /**
     * `capsicum_require_rights`: check that descriptor argument `fd` carries the
     * `required` rights and record which file it refers to.
     */
    method RequireRights(fd: ULong, required: Rights, fdt: map<Fd, File>) returns (r: Status)
      requires Valid()
      modifies this`nextFree, fds, files
      ensures Valid()
      ensures (r, View()) == RequireSpec(old(View()), fdt, fd, required)
    {
      if fd == AT_FDCWD_ARG {
        return Err(ECAPMODE);
      }
      var fd32 := ToFd(fd);
      if fd32 !in fdt {
        return Err(EBADF);
      }
      var file := fdt[fd32];
      var actual := RightsOf(file);
      if nextFree >= fdCount {
        return Err(ENOMEM);
      }
      fds[nextFree] := fd32;
      files[nextFree] := file;
      nextFree := nextFree + 1;
      if HasRights(actual, required) {
        r := Ok;
      } else {
        r := Err(ENOTCAPABLE);
      }
    }

    /**
     * `capsicum_realloc_pending_syscall`: make room for `numfds` records. The
     * new arrays replace the old ones without their contents being copied;
     * `allocOk` is the outcome of the two allocations, and on failure the state
     * is left as it was.
     */
    method Realloc(numfds: int, allocOk: bool)
      requires Valid()
      modifies this`fds, this`files, this`fdCount
      ensures Valid()
      ensures fdCount >= old(fdCount)
      ensures numfds <= old(fdCount) || !allocOk ==> fds == old(fds) && files == old(files) && fdCount == old(fdCount)
      ensures numfds > old(fdCount) && allocOk ==> fdCount == numfds && fresh(fds) && fresh(files)
    {
      if numfds <= fdCount {
        return;
      }
      if !allocOk {
        return;
      }
      var memFds := new Fd[numfds];
      var memFiles := new File[numfds];
      fdCount := numfds;
      fds := memFds;
      files := memFiles;
    }
  }

  /** The credentials `cred` carry pending-syscall state bound to thread `t`. */
  predicate OwnsState(cred: Cred, t: Task)
    reads cred, cred.security
  {
    cred.security != null && cred.security.task == t
  }

  /** `p` is freshly zeroed state bound to `t` (what `capsicum_cred_alloc_blank` attaches). */
  ghost predicate BlankFor(p: PendingSyscall?, t: Task)
    reads p
  {
    p != null && p.Valid() && p.task == t && p.fdCount == INLINE_SLOTS
    && p.nextFree == 0 && p.nextNewCap == Null && p.newCapRights == 0
  }

  /**
   * `capsicum_get_pending_syscall`: the state hung off the current credentials,
   * provided it belongs to the current thread; NULL otherwise.
   */
  function GetPendingSyscall(current: Task): (p: PendingSyscall?)
    reads current, current.cred, current.cred.security
    ensures p != null <==> OwnsState(current.cred, current)
    ensures p != null ==> p == current.cred.security
  {
    var s := current.cred.security;
    if s != null && s.task == current then s else null
  }

  /** The current thread's own state, if it has one, is well formed. */
  ghost predicate StateValid(current: Task)
    reads current, current.cred, current.cred.security
  {
    var p := GetPendingSyscall(current);
    p != null ==> p.Valid()
  }

  /** The objects of the current thread's own state (none if it has none). */
  function OwnedRepr(current: Task): set<object>
    reads current, current.cred, current.cred.security
  {
    var p := GetPendingSyscall(current);
    if p == null then {} else p.Repr()
  }

  /**
   * `capsicum_cred_alloc_blank`: attach zeroed state bound to `current` to
   * `cred`; `allocOk` is the outcome of the allocation.
   */
  method CredAllocBlank(cred: Cred, current: Task, allocOk: bool) returns (r: Status)
    modifies cred
    ensures allocOk ==> r == Ok && BlankFor(cred.security, current) && fresh(cred.security)
    ensures allocOk ==> fresh(cred.security.fds) && fresh(cred.security.files)
    ensures !allocOk ==> r == Err(ENOMEM) && cred.security == old(cred.security)
  {
    if !allocOk {
      return Err(ENOMEM);
    }
    var pending := new PendingSyscall(current);
    pending.nextFree := 0;
    pending.nextNewCap := Null;
    pending.newCapRights := 0;
    cred.security := pending;
    r := Ok;
  }

  /**
   * `capsicum_cred_prepare`: when credentials are duplicated, the copy gets
   * blank state only if the original's state belongs to the running thread;
   * recorded entries are never copied.
   */
  method CredPrepare(newCred: Cred, oldCred: Cred, current: Task, allocOk: bool) returns (r: Status)
    requires newCred != oldCred
    modifies newCred
    ensures OwnsState(oldCred, current) && allocOk ==>
      r == Ok && BlankFor(newCred.security, current) && fresh(newCred.security)
    ensures OwnsState(oldCred, current) && !allocOk ==>
      r == Err(ENOMEM) && newCred.security == old(newCred.security)
    ensures !OwnsState(oldCred, current) ==> r == Ok && newCred.security == old(newCred.security)
  {
    var oldPending := oldCred.security;
    if oldPending != null && oldPending.task == current {
      r := CredAllocBlank(newCred, current, allocOk);
      if r != Ok {
        return;
      }
    }
    r := Ok;
  }

  /**
   * `capsicum_cred_free`: detach the state from `cred`; the pre-allocated
   * capability it still holds, if any, is handed back in `released`.
   */
  method CredFree(cred: Cred) returns (released: Option<Capability>)
    requires cred.security != null ==> cred.security.SlotSafe()
    modifies cred
    ensures cred.security == null
    ensures old(cred.security) == null ==> released == None
    ensures old(cred.security) != null && old(cred.security.nextNewCap).Ptr? ==>
      released == Some(old(cred.security.nextNewCap).cap)
    ensures old(cred.security) != null && old(cred.security.nextNewCap).Null? ==> released == None
  {
    var pending := cred.security;
    cred.security := null;
    released := None;
    if pending != null {
      if pending.nextNewCap.Ptr? {
        released := Some(pending.nextNewCap.cap);
      }
    }
  }

  /**
   * The part of the kernel's `prepare_creds` this layer takes part in: a new
   * credential for `current`, with the `cred_prepare` hook run on it
   * (`credOk` and `blankOk` are the outcomes of the two allocations involved).
   */
  method PrepareCreds(current: Task, credOk: bool, blankOk: bool) returns (r: Result<Cred>)
    ensures r.Success? ==> fresh(r.value)
    ensures r.Failure? ==> r.errno == ENOMEM
    ensures !OwnsState(current.cred, current) ==> (r.Success? <==> credOk)
    ensures r.Success? && !OwnsState(current.cred, current) ==> r.value.security == null
    ensures r.Success? && OwnsState(current.cred, current) ==> BlankFor(r.value.security, current)
  {
    if !credOk {
      return Failure(ENOMEM);
    }
    var cred := new Cred();
    var st := CredPrepare(cred, current.cred, current, blankOk);
    if st != Ok {
      return Failure(ENOMEM);
    }
    r := Success(cred);
  }

  /**
   * `capsicum_alloc_pending_syscall`: the current thread's state, created on
   * first use. When the credentials carry no state or another thread's, they
   * are replaced by a private copy carrying fresh state bound to this thread,
   * marked as having no capability armed (`newCapRights` all ones).
   */
  method AllocPendingSyscall(current: Task, credOk: bool, blankOk: bool, pendingOk: bool)
    returns (r: Result<PendingSyscall>)
    requires StateValid(current)
    modifies current
    ensures r.Success? ==> GetPendingSyscall(current) == r.value && r.value.Valid()
    ensures old(GetPendingSyscall(current)) != null ==>
      r.Success? && r.value == old(GetPendingSyscall(current)) && current.cred == old(current.cred)
    ensures old(GetPendingSyscall(current)) == null ==> (r.Success? <==> credOk && pendingOk)
    ensures old(GetPendingSyscall(current)) == null && r.Success? ==>
      && fresh(current.cred) && fresh(r.value) && fresh(r.value.fds) && fresh(r.value.files)
      && r.value.fdCount == INLINE_SLOTS && r.value.nextFree == 0
      && r.value.nextNewCap == Null && r.value.newCapRights == ALL_RIGHTS
    ensures r.Failure? ==> r.errno == ENOMEM && current.cred == old(current.cred)
  {
    var pending := GetPendingSyscall(current);
    if pending == null {
      var prepared := PrepareCreds(current, credOk, blankOk);
      if prepared.Failure? {
        return Failure(ENOMEM);
      }
      var cred := prepared.value;
      var p := cred.security;
      if p == null {
        if !pendingOk {
          return Failure(ENOMEM);
        }
        p := new PendingSyscall(current);
        cred.security := p;
      }
      p.newCapRights := ALL_RIGHTS;
      p.nextFree := 0;
      p.nextNewCap := Null;
      p.task := current;
      current.cred := cred;
      pending := p;
    }
    r := Success(pending);
  }
}

=== FILE: scenarios.dfy ===
/**
 * Whole-system runs of the model: capability derivation, a confined thread's
 * system calls through interception and the file hooks, and the behaviour
 * that follows from how the pieces fit together.
 */
module Scenarios {
  import opened CapsicumTypes
  import opened Caps
  import opened Pending
  import opened Intercept
  import opened Hooks

  /** Bit positions for the rights these runs use (the rights header is not part of this model). */
  const CAP_READ: Rights := 0x1
  const CAP_WRITE: Rights := 0x2
  const CAP_SEEK: Rights := 0x4
  const CAP_LOOKUP: Rights := 0x8

  /** Another x86-64 system call number: `socket`, which installs a new file without a descriptor argument. */
  const NR_SOCKET: int := 41

  /** A thread whose credentials carry no Capsicum state yet. */
  method NewThread() returns (t: Task)
    ensures fresh(t) && fresh(t.cred) && t.cred.security == null
    ensures StateValid(t) && GetPendingSyscall(t) == null && OwnedRepr(t) == {}
  {
    var cred := new Cred();
    t := new Task(cred);
  }

  /**
   * Deriving a capability from a plain file and then one from that
   * capability: the second wraps the original file, not the first
   * capability, and holds only the rights both masks share.
   */
  method DeriveTwice(r1: Rights, r2: Rights) returns (fdt: map<Fd, File>)
    ensures 3 in fdt && 4 in fdt && 5 in fdt && fdt[3] == Plain(7)
    ensures CapGetrights(fdt, 4) == Success(r1)
    ensures CapGetrights(fdt, 5) == Success(r2 & r1)
    ensures Unwrap(fdt[4]) == Some(Plain(7)) && Unwrap(fdt[5]) == Some(Plain(7))
  {
    var fdt0 := map[3 := Plain(7)];
    var r, fdt1 := CapNew(true, 3, r1, fdt0, true, Success(4), true);
    var r', fdt2 := CapNew(true, 4, r2, fdt1, true, Success(5), true);
    fdt := fdt2;
  }

  /** A read-only capability refuses a write: the check on the descriptor fails with ENOTCAPABLE. */
  method ReadOnlyCapRefusesWrite() returns (r: Status)
    ensures r == Err(ENOTCAPABLE)
  {
    var rc, fdt := CapNew(true, 3, CAP_READ, map[3 := Plain(7)], true, Success(4), true);
    var t := NewThread();
    ghost var p, start, leftover;
    r, p, start, leftover := InterceptSyscall(true, t, NR_WRITE, [Check(4, CAP_WRITE)], fdt, true, true, true, true, false);
  }

  /** A confined call naming the current directory (AT_FDCWD) is refused with ECAPMODE. */
  method ImplicitDirectoryRefused(fdt: map<Fd, File>) returns (r: Status)
    ensures r == Err(ECAPMODE)
  {
    var t := NewThread();
    ghost var p, start, leftover;
    r, p, start, leftover := InterceptSyscall(true, t, NR_OPENAT, [Check(AT_FDCWD_ARG, CAP_LOOKUP)], fdt, true, true, true, true, false);
  }

  /** With interception disabled every call is let through, whatever its requirements. */
  method DisabledAllowsEveryCall(callnr: int, checks: seq<Check>, fdt: map<Fd, File>) returns (r: Status)
    ensures r == Ok
  {
    var t := NewThread();
    ghost var p, start, leftover;
    r, p, start, leftover := InterceptSyscall(false, t, callnr, checks, fdt, true, true, true, true, false);
  }

  /**
   * `openat` relative to a directory capability with only the lookup right:
   * the call is allowed, and the file it creates is installed wrapped in a
   * capability carrying the directory's rights.
   */
  method OpenatWrapsNewFile() returns (r: Status, installed: File)
    ensures r == Ok
    ensures installed.CapFile? && Unwrap(installed) == Some(Plain(2)) && RightsOf(installed) == CAP_LOOKUP
  {
    var rc, fdt := CapNew(true, 3, CAP_LOOKUP, map[3 := Plain(1)], true, Success(4), true);
    var t := NewThread();
    ghost var p, start, leftover;
    r, p, start, leftover := InterceptSyscall(true, t, NR_OPENAT, [Check(4, CAP_LOOKUP)], fdt, true, true, true, true, false);
    installed := FileInstall(Plain(2), 5, t);
  }

  /**
   * Wrapping a plain file with no rights, then wrapping that capability with
   * every right: the second wraps the original file (capabilities do not
   * stack) and has exactly the rights asked for.
   */
  method RewrapReachesOriginal() returns (fdt: map<Fd, File>)
    ensures 0 in fdt && 3 in fdt && 4 in fdt && fdt[0] == Plain(7)
    ensures CapGetrights(fdt, 3) == Success(0) && Unwrap(fdt[3]) == Some(Plain(7))
    ensures CapGetrights(fdt, 4) == Success(ALL_RIGHTS) && Unwrap(fdt[4]) == Some(Plain(7))
  {
    var r1, fdt1 := InstallFd(Plain(7), 0, map[0 := Plain(7)], Success(3), true);
    var r2, fdt2 := InstallFd(fdt1[3], ALL_RIGHTS, fdt1, Success(4), true);
    fdt := fdt2;
  }

  /** Outside capability mode, looking up a capability yields the file it wraps. */
  method LookupUnwrapsOutsideCapMode() returns (retrieved: Option<File>)
    ensures retrieved == Some(Plain(7))
  {
    var r1, fdt := InstallFd(Plain(7), 0, map[0 := Plain(7)], Success(3), true);
    var t := NewThread();
    retrieved := FileLookup(fdt[3], 3, t, false);
  }

  /**
   * The time-of-check/time-of-use attack: a write is checked against a
   * capability with the write right, then the descriptor is pointed
   * (`dup2`) at a capability with no rights before the write looks it up.
   * The check passes and the lookup fails.
   */
  method SimulateToctou() returns (checked: Status, retrieved: Option<File>)
    ensures checked == Ok && retrieved == None
  {
    var rc, fdt1 := InstallFd(Plain(7), 0, map[0 := Plain(7)], Success(3), true);
    var rw, fdt := InstallFd(Plain(7), CAP_WRITE | CAP_SEEK, fdt1, Success(4), true);
    var t := NewThread();
    ghost var p, start, leftover;
    checked, p, start, leftover := InterceptSyscall(true, t, NR_WRITE, [Check(4, CAP_WRITE)], fdt, true, true, true, true, false);
    ToctouDetected(start, fdt, [Check(4, CAP_WRITE)], 0, fdt[3]);
    var swapped := fdt[4 := fdt[3]];
    retrieved := FileLookup(swapped[4], 4, t, true);
  }

  /**
   * The unarmed-sentinel mismatch: an `openat` on a directory capability arms
   * a capability, but fails before installing a file. The next call resets the
   * armed rights to zero, which the install hook does not read as "unarmed",
   * so the next file installed (here by `socket`) is wrapped with no rights.
   */
  method LeftoverCapWrapsWithNoRights() returns (r: Status, installed: File)
    ensures r == Ok
    ensures installed.CapFile? && Unwrap(installed) == Some(Plain(9)) && RightsOf(installed) == 0
  {
    var rc, fdt := CapNew(true, 3, CAP_LOOKUP, map[3 := Plain(1)], true, Success(4), true);
    var t := NewThread();
    ghost var p, start, leftover;
    var first: Status;
    first, p, start, leftover := InterceptSyscall(true, t, NR_OPENAT, [Check(4, CAP_LOOKUP)], fdt, true, true, true, true, false);
    r, p, start, leftover := InterceptSyscall(true, t, NR_SOCKET, [], fdt, true, true, true, true, false);
    installed := FileInstall(Plain(9), 5, t);
  }

  /**
   * Deriving a capability when the descriptor table is full: the error
   * `get_unused_fd` reports is returned and the table is left as it was.
   */
  method FullTableRefusesDerive() returns (r: Result<Fd>, fdt: map<Fd, File>)
    ensures r == Failure(EMFILE) && fdt == map[3 := Plain(7)]
  {
    r, fdt := CapNew(true, 3, CAP_READ, map[3 := Plain(7)], true, Failure(EMFILE), true);
  }

  /**
   * Two threads come to share credentials carrying the first thread's state.
   * The second thread's next call gets private, empty state of its own and
   * never sees the first thread's records.
   */
  method SharedCredentialsGetPrivateState() returns (t1: Task, t2: Task)
    ensures GetPendingSyscall(t1) != null && GetPendingSyscall(t2) != null
    ensures GetPendingSyscall(t1) != GetPendingSyscall(t2)
    ensures Matches(GetPendingSyscall(t1).View(), 3)
    ensures !Matches(GetPendingSyscall(t2).View(), 3)
  {
    var fdt := map[3 := Plain(7)];
    t1 := NewThread();
    ghost var p1, s1, l1, p2, s2, l2;
    var r1, r2;
    r1, p1, s1, l1 := InterceptSyscall(true, t1, NR_WRITE, [Check(3, CAP_WRITE)], fdt, true, true, true, true, false);
    assert p1.View().fds[0] == 3;
    t2 := new Task(t1.cred);
    r2, p2, s2, l2 := InterceptSyscall(true, t2, NR_SOCKET, [], fdt, true, true, true, true, false);
  }

  /**
   * Interception as written, when the pre-allocation for an `openat` on a
   * capability fails: the call fails with ENOMEM but the slot keeps the error
   * pointer. The next `openat` on a capability takes it for an armed
   * capability and is let through, and the slot is left unsafe for the
   * install and free hooks, which dereference it.
   */
  method ErrPtrLeftArmedAsWritten() returns (first: Status, second: Status, safe: bool)
    ensures first == Err(ENOMEM) && second == Ok && !safe
  {
    var rc, fdt := CapNew(true, 3, CAP_LOOKUP, map[3 := Plain(1)], true, Success(4), true);
    var t := NewThread();
    ghost var p, start, leftover;
    first, p, start, leftover := InterceptSyscall(true, t, NR_OPENAT, [Check(4, CAP_LOOKUP)], fdt, true, true, true, false, false);
    second, p, start, leftover := InterceptSyscall(true, t, NR_OPENAT, [Check(4, CAP_LOOKUP)], fdt, true, true, true, true, false);
    var q := GetPendingSyscall(t);
    safe := q != null && q.SlotSafe();
  }

  /**
   * The same two calls with the corrected pre-allocation: the first still
   * fails with ENOMEM, and the second arms a real capability.
   */
  method ErrPtrNeverArmed() returns (first: Status, second: Status, safe: bool, armed: bool)
    ensures first == Err(ENOMEM) && second == Ok && safe && armed
  {
    var rc, fdt := CapNew(true, 3, CAP_LOOKUP, map[3 := Plain(1)], true, Success(4), true);
    var t := NewThread();
    ghost var p, start, leftover;
    first, p, start, leftover := InterceptSyscall(true, t, NR_OPENAT, [Check(4, CAP_LOOKUP)], fdt, true, true, true, false, true);
    second, p, start, leftover := InterceptSyscall(true, t, NR_OPENAT, [Check(4, CAP_LOOKUP)], fdt, true, true, true, true, true);
    var q := GetPendingSyscall(t);
    safe := q != null && q.SlotSafe();
    armed := q != null && q.nextNewCap.Ptr?;
  }
}
